=== FILE: README.md ===
# BluetoothScoreKeeper, modelled in Dafny

BluetoothScoreKeeper is a volleyball scoreboard spread over three devices. A watch
writes score commands to the wearable data layer. A phone either hosts the game or acts
as its client. A tablet shows a second scoreboard. The devices talk over a peer-to-peer
connection SDK.

This project models the sequential logic of the three core Kotlin files as pure
functions. It leaves out the UI and the SDK itself.

- `HostScoring` is the phone's score rule (`updateScoreLambda`). It keeps two counters
  and a winner. A team wins at 15 or more with a lead of 2. TEAM WALL is checked before
  TEAM GLASS. Once there is a winner the game is frozen until a reset.
- `TabletScoring` is the tablet's rule. It keeps two counters that only the increment
  tokens `P1_INC` and `P2_INC` move. A reset callback zeroes them. There is no winner.
- `MainActivity`, `TabletActivity` and `PhoneListenerService` are the three session
  state machines. Each one is a step function `Next(state, event)` that returns the new
  state and the SDK calls made, in order. Every SDK callback, UI choice and lifecycle
  call is an event constructor. Every SDK call is an `Action`: start/stop advertising,
  start/stop discovery, stop all endpoints, request connection, accept, reject,
  disconnect, send payload.
- `Commands` holds the command vocabulary. The watch module's five tokens
  (`PLAYER_1_INC`, …, `RESET_SCORES`) are `WearVocabulary`. The app module defines only
  `P1_INC` and `P2_INC`, and it lacks the decrement and reset constants that the phone's
  rule uses. So the phone's rule takes a `Vocabulary` parameter. Tokens are decoded in
  the order of the Kotlin `when`, and an unknown token becomes `Other(token)`.
- `Utf8` is the wire format. A command is sent as the UTF-8 bytes of its token. Encoding
  follows Table 3-6 of section 3.9 of the Unicode Standard. Decoding accepts the
  well-formed sequences of Table 3-7 and replaces each maximal ill-formed subpart with
  U+FFFD. `Decode(Encode(s)) == s` is proved, and so is the converse: bytes whose
  decoding contains no U+FFFD re-encode to themselves.
- `Relay` holds the properties that span devices. A HOST that applies and forwards watch
  commands ends with the same score as a peer that applies the bytes it receives. The
  tablet's rule differs from the host's. Watch tokens never move the tablet. The
  background relay service advertises under a different service id and strategy from
  the one the tablet discovers.

Some behaviour of the code is easy to misread; the model follows the code as written:

- The HOST sends when it has a recorded endpoint (`connectedEndpointId`), not when its
  `isConnected` flag is set. `MainActivity.RunInvariant` proves that the two agree on the
  phone.
- Stopping the phone activity clears the role and the connection but not the score.
  The score lives in saveable UI state.
- On a connection failure, the relay service does not restart advertising. Only a
  disconnect does.
- An unrecognised token still runs the winner check on the phone. Under the reachable
  invariant that check changes nothing.

## Model

| member | source | states |
|---|---|---|
| Utf8.Encode | app/src/main/java/com/example/bluetoothscorekeeper/MainActivity.kt:287 | the sender's bytes number between one and four per character; there are as many bytes as characters exactly when the text is ASCII, and then each byte is its character's code point |
| Utf8.Decode | app/src/main/java/com/example/bluetoothscorekeeper/MainActivity.kt:70 | the receiver never produces more characters than bytes, and nothing only from nothing; a byte that cannot begin a sequence (0x80–0xC1, 0xF5–0xFF) yields U+FFFD; ASCII bytes decode one to one |
| Utf8.EncodeDecode | app/src/main/java/com/example/bluetoothscorekeeper/TabletActivity.kt:263 | bytes whose decoding contains no U+FFFD are exactly the UTF-8 encoding of that decoding: a well-formed payload loses or alters nothing |
| Utf8.DecodeEncode | app/src/main/java/com/example/bluetoothscorekeeper/MainActivity.kt:66-75 | decoding the UTF-8 bytes of any string of Unicode scalar values (as the receiver does) gives back that string |
| Utf8.EncodeInjective | app/src/main/java/com/example/bluetoothscorekeeper/PhoneListenerService.kt:121-125 | different strings of Unicode scalar values are sent as different payloads |
| Commands.Decode | app/src/main/java/com/example/bluetoothscorekeeper/MainActivity.kt:163-173 | a token decodes to `Other` exactly when the vocabulary does not name it; with distinct tokens, the decrement and reset tokens decode to their commands; re-encoding the decoded command gives the token back |
| Commands.DecodeEncode | wear/src/main/java/com/example/wear/presentation/WearableConstants.kt:12-18 | with distinct tokens, every named command, and every `Other` whose token the vocabulary does not name, survives encoding then decoding |
| Commands.WearVocabularyDistinct | wear/src/main/java/com/example/wear/presentation/WearableConstants.kt:12-18 | the watch's five tokens are pairwise distinct |
| Commands.WearTokensAreNotAppTokens | app/src/main/java/com/example/bluetoothscorekeeper/WearableConstants.kt:12-13 | the app's `P1_INC`/`P2_INC` are not among the watch's tokens |
| HostScoring.Apply | app/src/main/java/com/example/bluetoothscorekeeper/MainActivity.kt:159-182 | a frozen game (winner set, token not reset) is unchanged; reset gives (0, 0, no winner) from any state; an increment adds exactly 1 to its own player only; a decrement is floored at 0; an unknown token changes no score; after an accepted non-reset command the winner is WALL if p1 ≥ 15 and p1 − p2 ≥ 2, else GLASS if p2 ≥ 15 and p2 − p1 ≥ 2, else unchanged; consistency is preserved; under consistency an unknown token changes nothing |
| HostScoring.RunConsistent | app/src/main/java/com/example/bluetoothscorekeeper/MainActivity.kt:159-182 | from a consistent score, any token sequence reaches a consistent score: no winner means neither win condition holds, and a recorded winner's condition holds |
| HostScoring.ReachableConsistent | app/src/main/java/com/example/bluetoothscorekeeper/MainActivity.kt:154-156 | every score reachable from (0, 0, no winner) is consistent |
| HostScoring.FrozenUntilReset | app/src/main/java/com/example/bluetoothscorekeeper/MainActivity.kt:160-161 | once a winner is set, any token sequence without the reset token changes nothing, so the winner cannot flip |
| HostScoring.ResetRestarts | app/src/main/java/com/example/bluetoothscorekeeper/MainActivity.kt:168-172 | whatever came before a reset token, what follows it plays exactly as a fresh game |
| HostScoring.RunAppend | app/src/main/java/com/example/bluetoothscorekeeper/MainActivity.kt:189-193 | applying two command streams one after the other equals applying their concatenation |
| HostScoring.DecrementAtZero | app/src/main/java/com/example/bluetoothscorekeeper/MainActivity.kt:166-167 | a decrement at 0 leaves that score at 0 |
| HostScoring.WallWinsAtFifteenThirteen | app/src/main/java/com/example/bluetoothscorekeeper/MainActivity.kt:176-177 | (14, 13) plus a player-1 increment gives (15, 13) with TEAM WALL |
| HostScoring.NoWinnerAtFifteenAll | app/src/main/java/com/example/bluetoothscorekeeper/MainActivity.kt:176-180 | (15, 14) plus a player-2 increment gives (15, 15) with no winner |
| HostScoring.OpponentDecrementWins | app/src/main/java/com/example/bluetoothscorekeeper/MainActivity.kt:166-180 | (15, 14) plus a player-2 decrement gives (15, 13) with TEAM WALL |
| TabletScoring.Update | app/src/main/java/com/example/bluetoothscorekeeper/TabletActivity.kt:141-148 | no token lowers a score; a counter gains exactly one point exactly when the token is its own increment token; every other token (decrements, resets, watch tokens) leaves the score unchanged |
| TabletScoring.RunCounts | app/src/main/java/com/example/bluetoothscorekeeper/TabletActivity.kt:141-148 | after any token sequence, each counter equals its start plus the number of its increment tokens in the sequence |
| TabletScoring.WearTokensIgnored | app/src/main/java/com/example/bluetoothscorekeeper/TabletActivity.kt:143-146 | none of the watch's tokens changes a tablet score |
| MainActivity.Next | app/src/main/java/com/example/bluetoothscorekeeper/MainActivity.kt:49-257 | success records the endpoint, sets connected and stops advertising and discovery; failure or disconnect clears both and restarts for the role; onStop clears endpoint, connected flag and role and stops all endpoints; a send happens exactly for a watch command on a HOST with an endpoint, and a watch command issues that send or no SDK call at all; inbound connections are accepted; a found endpoint stops discovery before the request; the score moves only through the shared rule, for watch commands on a HOST and for received bytes; a role is chosen only while none is set, and then starts advertising (HOST) or discovery (CLIENT) if permissions are granted and requests them otherwise; a permission result starts the role's step only when all were granted; a lost endpoint and a received payload issue no SDK call, and a non-bytes payload changes nothing |
| MainActivity.RestartIsFreshStart | app/src/main/java/com/example/bluetoothscorekeeper/MainActivity.kt:52-122 | after a failed connection or a disconnect the phone issues exactly the calls that choosing its role with permissions granted, or a granted permission result, issues for that role, and that restart is never empty |
| MainActivity.RunInvariant | app/src/main/java/com/example/bluetoothscorekeeper/MainActivity.kt:89-122 | over any event sequence, the phone is connected exactly when an endpoint is recorded, and its score stays consistent |
| MainActivity.ClientNeverSends | app/src/main/java/com/example/bluetoothscorekeeper/MainActivity.kt:283-292 | a phone that is not HOST sends nothing, whatever events it handles, until a role is chosen |
| TabletActivity.Next | app/src/main/java/com/example/bluetoothscorekeeper/TabletActivity.kt:64-256 | inbound connections are rejected and no step ever accepts; a found endpoint stops discovery before the request; a failed request restarts discovery; STATUS_OK records the host, any other status clears it and restarts discovery; a disconnect does the same; a lost endpoint matters only when it is the recorded host; onStop disconnects and stops discovery but keeps the host id; start-up discovers if permissions are granted and requests them otherwise, a permission result discovers only when all were granted; the score callbacks, the reset callback and received payloads change only the score and issue no SDK call, and no other event changes the score; only the reset callback lowers a score; no callback sends |
| TabletActivity.RunInvariant | app/src/main/java/com/example/bluetoothscorekeeper/TabletActivity.kt:227-255 | over any event sequence, the tablet is connected only with a recorded host |
| TabletActivity.NeverAccepts | app/src/main/java/com/example/bluetoothscorekeeper/TabletActivity.kt:220-225 | no event sequence makes the tablet accept a connection |
| TabletActivity.NotConnectedStays | app/src/main/java/com/example/bluetoothscorekeeper/TabletActivity.kt:227-235 | a disconnected tablet stays disconnected until a successful connection result |
| TabletActivity.StoppedSuppressesSends | app/src/main/java/com/example/bluetoothscorekeeper/TabletActivity.kt:82-92 | after onStop, no update is sent until a new successful connection result, although the host id may remain recorded |
| TabletActivity.ScoresOnlyGrowWithoutReset | app/src/main/java/com/example/bluetoothscorekeeper/TabletActivity.kt:64-67 | without the reset callback, no event sequence lowers a tablet score |
| PhoneListenerService.ForwardAll | app/src/main/java/com/example/bluetoothscorekeeper/PhoneListenerService.kt:42-56 | handling a buffer only sends, only to the recorded endpoint, at most once per record, and nothing without an endpoint |
| PhoneListenerService.ForwardAllSendsCommands | app/src/main/java/com/example/bluetoothscorekeeper/PhoneListenerService.kt:42-56 | with an endpoint, the sends are exactly the commands of the changed `/score_update` records, in buffer order; every other record is ignored |
| PhoneListenerService.ForwardAllAppend | app/src/main/java/com/example/bluetoothscorekeeper/PhoneListenerService.kt:45-56 | handling two buffers one after the other sends what their concatenation sends |
| PhoneListenerService.Next | app/src/main/java/com/example/bluetoothscorekeeper/PhoneListenerService.kt:23-110 | each creation is a fresh instance with no recorded endpoint, and it advertises; destroy stops advertising and all endpoints; inbound connections are accepted; inbound payloads change nothing; SUCCESS records the endpoint while REJECTED, ERROR and other codes change nothing and restart nothing; a disconnect clears the endpoint and advertises again; forwarding leaves the state (which has no score) unchanged |
| PhoneListenerService.RecreatedServiceForgetsEndpoint | app/src/main/java/com/example/bluetoothscorekeeper/PhoneListenerService.kt:23-38 | after a connection, a destroy and a re-creation, a score-update buffer forwards nothing: the only calls are the destroy's stops and the new instance's advertising |
| Relay.HostRelays | app/src/main/java/com/example/bluetoothscorekeeper/MainActivity.kt:187-195 | a HOST with a recorded endpoint applies each watch command and sends exactly the commands' bytes, in order, with its session untouched |
| Relay.PhoneApplies | app/src/main/java/com/example/bluetoothscorekeeper/MainActivity.kt:66-75 | a phone that receives the bytes of some tokens ends with the shared rule applied to those tokens |
| Relay.HostAndClientAgree | app/src/main/java/com/example/bluetoothscorekeeper/MainActivity.kt:283-292 | a peer that starts from the host's score and receives what the host sent ends with the host's score |
| Relay.TabletApplies | app/src/main/java/com/example/bluetoothscorekeeper/TabletActivity.kt:259-268 | a tablet that receives the bytes of some tokens ends with its increment-only rule applied to those tokens |
| Relay.HostAndTabletDiverge | app/src/main/java/com/example/bluetoothscorekeeper/TabletActivity.kt:141-148 | with app-compatible tokens, an increment then a decrement of player 1 leaves the phone at 0–0 and the tablet at 1–0 |
| Relay.TabletIgnoresWinner | app/src/main/java/com/example/bluetoothscorekeeper/TabletActivity.kt:21-22 | after TEAM WALL wins, a player-2 increment changes nothing on the phone but adds a point on the tablet |
| Relay.WatchTokensNeverMoveTablet | app/src/main/java/com/example/bluetoothscorekeeper/WearableConstants.kt:12-13 | a sequence of watch-spelled tokens leaves the tablet's counters unchanged |
| Relay.RelayAndTabletDoNotMeet | app/src/main/java/com/example/bluetoothscorekeeper/PhoneListenerService.kt:18-19 | the relay service's service id and strategy differ from the ones the tablet discovers with |

## Left out

- The UI is left out: the scoreboard screens, the watch layout and `RoleSelectionScreen`. The role choice is kept, as the `RoleSelected` event; a choice made while a role is already set is a no-op, because the selection screen is shown only while the role is null.
- Status labels (`connectionStatus`), logging and toasts change no modelled state.
- The success and failure listeners of start advertising, start discovery and request connection are left out where they only set a label. A failed connection request is kept as the `ConnectionRequestFailed` event.
- Permissions are left out: the permission lists, SDK-version branches and permission checks become a boolean on the event. Denial emits `RequestPermissions` or nothing.
- The SDK is opaque: what it does with an action is not modelled. Status codes are the constructors `Success`, `ConnectionRejected`, `Error` and `OtherCode`, not their numbers.
- `ScoreUpdateRepository` (a replay-1 shared flow) is left out. Its items are the `WatchCommand` event, handled only while the role is HOST, as in the `LaunchedEffect`. `newCommand` has no caller in the code, so the model claims no watch-to-phone path. Replay of the last command when collection restarts is not modelled.
- `runOnUiThread` and `LaunchedEffect` scheduling are left out. Each device handles one sequential stream of events.
- The tablet never calls `acceptConnection`, so its payload callback is never handed to the SDK. `TabletActivity.PayloadReceived` models the callback as written, in case it were invoked.
- `TabletActivity.Player1Pressed`, `TabletActivity.Player2Pressed` and `TabletActivity.ResetPressed` model the lambdas handed to `ScoreboardScreen` (TabletActivity.kt:62-67). `ScoreboardScreen` accepts them but never calls them and draws no button, so in the code as written they never fire. With the payload callback also never registered, nothing in the code as written changes a tablet score; the model states what would happen if they were invoked.
- `TabletActivity.SendScoreUpdate` has no caller in the code. It is modelled as a function of its own and is not part of any event.
- The watch module (its `MainActivity`, composables and timestamped data records) is not part of this model. Only its constants are used.
- Utf8.Decode: a malformed payload is assumed to be replaced by U+FFFD per maximal ill-formed subpart, as section 3.9 of the Unicode Standard recommends. The JDK decoder's exact replacement is not checked against this. No command token contains U+FFFD, so a malformed payload never decodes to a vocabulary token.
- Utf8.DecodeEncode, Utf8.EncodeInjective: strings are sequences of Unicode scalar values. A Kotlin `String` may also hold an unpaired UTF-16 surrogate, which `toByteArray(UTF_8)` encodes as `?` (0x3F); such strings do not round-trip and collide with the string holding `?` instead. Every command token is ASCII, so the relayed commands are not affected.
- HostScoring.Apply: scores are natural numbers. Kotlin's 32-bit `Int` wrap-around after 2^31 − 1 points is not modelled, since it is not intended behaviour.
- TabletScoring.Update: scores are natural numbers, with no 32-bit wrap-around, for the same reason.
- MainActivity.Next: the vocabulary is a parameter. The app module does not define `PLAYER_1_DEC`, `PLAYER_2_DEC` or `RESET_SCORES`, so the phone's decrement and reset tokens are not fixed. Properties that depend on them require a vocabulary with distinct tokens.
- A second inbound connection while connected is handled exactly as the callbacks do: the recorded endpoint is overwritten. The code defines no policy for more than one peer.

=== FILE: commands.dfy ===
/**
 The command vocabulary shared (in intent) by the watch, the phone and the tablet.

 The watch module defines five tokens, `PLAYER_1_INC` … `RESET_SCORES`; the app module
 defines only `P1_INC` and `P2_INC` under the same constant names, and not the
 decrement or reset constants the phone's score rule refers to. So a command is decoded
 through an explicit `Vocabulary`, and a token that names no command stays `Other`.
 */
module Commands {

  datatype Command = P1Inc | P2Inc | P1Dec | P2Dec | ResetScores | Other(token: string)

  /** The five token strings one side of the relay compares incoming commands against. */
  datatype Vocabulary = Vocabulary(p1Inc: string, p2Inc: string, p1Dec: string, p2Dec: string, reset: string)
  {
    predicate Names(t: string) {
      t == p1Inc || t == p2Inc || t == p1Dec || t == p2Dec || t == reset
    }

    /** No two commands share a token, so the order of the comparisons does not matter. */
    predicate Distinct() {
      && p1Inc != p2Inc && p1Inc != p1Dec && p1Inc != p2Dec && p1Inc != reset
      && p2Inc != p1Dec && p2Inc != p2Dec && p2Inc != reset
      && p1Dec != p2Dec && p1Dec != reset
      && p2Dec != reset
    }
  }

  /** Data-layer path and key of the watch's command record. */
  const ScoreUpdatePath := "/score_update"
  const CommandKey := "command"

  /** The tokens the watch sends. */
  const WearVocabulary := Vocabulary("PLAYER_1_INC", "PLAYER_2_INC", "PLAYER_1_DEC", "PLAYER_2_DEC", "RESET_SCORES")

  /** The two command tokens the app module does define. */
  const AppP1Inc := "P1_INC"
  const AppP2Inc := "P2_INC"

  /** A vocabulary that agrees with every command constant the app module defines. */
  predicate AgreesWithApp(v: Vocabulary) {
    v.p1Inc == AppP1Inc && v.p2Inc == AppP2Inc
  }

  function Encode(v: Vocabulary, c: Command): (t: string)
    ensures c.Other? ==> t == c.token
    ensures !c.Other? ==> v.Names(t)
  {
    match c
    case P1Inc => v.p1Inc
    case P2Inc => v.p2Inc
    case P1Dec => v.p1Dec
    case P2Dec => v.p2Dec
    case ResetScores => v.reset
    case Other(t) => t
  }

  /** A token is compared with the vocabulary in the order of a Kotlin `when`: first match wins. */
  function Decode(v: Vocabulary, t: string): (c: Command)
    ensures c.Other? <==> !v.Names(t)
    ensures Encode(v, c) == t
    ensures v.Distinct() && t == v.p1Dec ==> c == P1Dec
    ensures v.Distinct() && t == v.p2Dec ==> c == P2Dec
    ensures v.Distinct() && t == v.reset ==> c == ResetScores
  {
    if t == v.p1Inc then P1Inc
    else if t == v.p2Inc then P2Inc
    else if t == v.p1Dec then P1Dec
    else if t == v.p2Dec then P2Dec
    else if t == v.reset then ResetScores
    else Other(t)
  }

  /** With distinct tokens every command survives an encode/decode round trip. */
  lemma DecodeEncode(v: Vocabulary, c: Command)
    requires v.Distinct()
    requires c.Other? ==> !v.Names(c.token)
    ensures Decode(v, Encode(v, c)) == c
  {
  }

  lemma WearVocabularyDistinct()
    ensures WearVocabulary.Distinct()
  {
  }

  /** No watch token equals an app token: the watch's increments are not the app's increments. */
  lemma WearTokensAreNotAppTokens()
    ensures !WearVocabulary.Names(AppP1Inc) && !WearVocabulary.Names(AppP2Inc)
  {
  }
}

=== FILE: host_scoring.dfy ===
/**
 The phone's score rule (`updateScoreLambda` of MainActivity): two counters and a
 winner. A team wins at 15 points or more with a lead of at least 2; once a winner is
 declared, every token but the reset token is ignored until the game is reset.

 The same rule is applied to commands that come from the watch and to commands that
 arrive from the peer, so it is a pure function of (score, token).
 */
module HostScoring {
  import opened Wrappers
  import opened Commands

  datatype Team = TeamWall | TeamGlass

  datatype Score = Score(p1: nat, p2: nat, winner: Option<Team>)

  const Initial := Score(0, 0, None)

  const WinningScore := 15
  const WinningLead := 2

  predicate WallWins(p1: int, p2: int) {
    p1 >= WinningScore && p1 - p2 >= WinningLead
  }

  predicate GlassWins(p1: int, p2: int) {
    p2 >= WinningScore && p2 - p1 >= WinningLead
  }

  /** The game is over and the token is not the reset token: nothing may change. */
  predicate Frozen(v: Vocabulary, s: Score, t: string) {
    s.winner.Some? && t != v.reset
  }

  /**
   The invariant of every score reachable from `Initial`: the recorded winner is exactly
   the team whose win condition holds.
   */
  predicate Consistent(s: Score) {
    && (s.winner.None? ==> !WallWins(s.p1, s.p2) && !GlassWins(s.p1, s.p2))
    && (s.winner == Some(TeamWall) ==> WallWins(s.p1, s.p2))
    && (s.winner == Some(TeamGlass) ==> GlassWins(s.p1, s.p2))
  }

  /** The winner check after every accepted command: TEAM WALL is checked first. */
  function CheckWinner(s: Score): Score {
    if WallWins(s.p1, s.p2) then s.(winner := Some(TeamWall))
    else if GlassWins(s.p1, s.p2) then s.(winner := Some(TeamGlass))
    else s
  }

  function Apply(v: Vocabulary, s: Score, t: string): (r: Score)
    // the frozen game
    ensures Frozen(v, s, t) ==> r == s
    // reset escapes every state, also one with a winner
    ensures v.Distinct() && t == v.reset ==> r == Initial
    // an increment adds exactly one point to its own player
    ensures s.winner.None? && t == v.p1Inc ==> r.p1 == s.p1 + 1 && r.p2 == s.p2
    ensures s.winner.None? && t == v.p2Inc && t != v.p1Inc ==> r.p1 == s.p1 && r.p2 == s.p2 + 1
    // a decrement is floored at zero
    ensures s.winner.None? && v.Distinct() && t == v.p1Dec ==>
              r.p2 == s.p2 && (if s.p1 > 0 then r.p1 == s.p1 - 1 else r.p1 == 0)
    ensures s.winner.None? && v.Distinct() && t == v.p2Dec ==>
              r.p1 == s.p1 && (if s.p2 > 0 then r.p2 == s.p2 - 1 else r.p2 == 0)
    // an unrecognised token changes no score
    ensures !v.Names(t) ==> r.p1 == s.p1 && r.p2 == s.p2
    // the winner after an accepted non-reset command: WALL first, then GLASS, else unchanged
    ensures !Frozen(v, s, t) && Decode(v, t) != ResetScores ==>
              r.winner == (if WallWins(r.p1, r.p2) then Some(TeamWall)
                           else if GlassWins(r.p1, r.p2) then Some(TeamGlass)
                           else s.winner)
    // reachable states stay consistent
    ensures v.Distinct() && Consistent(s) ==> Consistent(r)
    // under the invariant, an unrecognised token changes nothing at all
    ensures Consistent(s) && !v.Names(t) ==> r == s
  {
    if Frozen(v, s, t) then s
    else
      var next := match Decode(v, t)
        case P1Inc => s.(p1 := s.p1 + 1)
        case P2Inc => s.(p2 := s.p2 + 1)
        case P1Dec => if s.p1 > 0 then s.(p1 := s.p1 - 1) else s
        case P2Dec => if s.p2 > 0 then s.(p2 := s.p2 - 1) else s
        case ResetScores => Initial
        case Other(_) => s;
      CheckWinner(next)
  }

  /** The tokens applied one after another, in the order they arrived. */
  function Run(v: Vocabulary, s: Score, ts: seq<string>): Score
    decreases |ts|
  {
    if |ts| == 0 then s else Run(v, Apply(v, s, ts[0]), ts[1..])
  }

  lemma {:induction false} RunAppend(v: Vocabulary, s: Score, a: seq<string>, b: seq<string>)
    ensures Run(v, s, a + b) == Run(v, Run(v, s, a), b)
    decreases |a|
  {
    if |a| > 0 {
      assert (a + b)[0] == a[0];
      assert (a + b)[1..] == a[1..] + b;
      RunAppend(v, Apply(v, s, a[0]), a[1..], b);
    } else {
      assert a + b == b;
    }
  }

  /** Every score reachable from a consistent one is consistent; `Initial` is consistent. */
  lemma {:induction false} RunConsistent(v: Vocabulary, s: Score, ts: seq<string>)
    requires v.Distinct() && Consistent(s)
    ensures Consistent(Run(v, s, ts))
    decreases |ts|
  {
    if |ts| > 0 {
      RunConsistent(v, Apply(v, s, ts[0]), ts[1..]);
    }
  }

  lemma ReachableConsistent(v: Vocabulary, ts: seq<string>)
    requires v.Distinct()
    ensures Consistent(Run(v, Initial, ts))
  {
    RunConsistent(v, Initial, ts);
  }

  /** Once a winner is declared, nothing changes (not even the winner) until a reset token arrives. */
  lemma {:induction false} FrozenUntilReset(v: Vocabulary, s: Score, ts: seq<string>)
    requires s.winner.Some?
    requires forall i :: 0 <= i < |ts| ==> ts[i] != v.reset
    ensures Run(v, s, ts) == s
    decreases |ts|
  {
    if |ts| > 0 {
      FrozenUntilReset(v, s, ts[1..]);
    }
  }

  /** A reset token forgets the whole past: what follows it plays as a fresh game. */
  lemma ResetRestarts(v: Vocabulary, s: Score, before: seq<string>, after: seq<string>)
    requires v.Distinct()
    ensures Run(v, s, before + [v.reset] + after) == Run(v, Initial, after)
  {
    RunAppend(v, s, before + [v.reset], after);
    RunAppend(v, s, before, [v.reset]);
  }

  /** A decrement at zero is a no-op: the counter stays at zero. */
  lemma DecrementAtZero(v: Vocabulary, other: nat)
    requires v.Distinct()
    ensures Apply(v, Score(0, other, None), v.p1Dec).p1 == 0
    ensures Apply(v, Score(other, 0, None), v.p2Dec).p2 == 0
  {
  }

  /** (14, 13) and a player-1 increment: 15 to 13, TEAM WALL wins. */
  lemma WallWinsAtFifteenThirteen(v: Vocabulary)
    ensures Apply(v, Score(14, 13, None), v.p1Inc) == Score(15, 13, Some(TeamWall))
  {
  }

  /** (15, 14) and a player-2 increment: 15 to 15, no winner. */
  lemma NoWinnerAtFifteenAll(v: Vocabulary)
    requires v.p2Inc != v.p1Inc
    ensures Apply(v, Score(15, 14, None), v.p2Inc) == Score(15, 15, None)
  {
  }

  /** Decrementing the opponent can decide the game: (15, 14) and a player-2 decrement. */
  lemma OpponentDecrementWins(v: Vocabulary)
    requires v.Distinct()
    ensures Apply(v, Score(15, 14, None), v.p2Dec) == Score(15, 13, Some(TeamWall))
  {
  }
}

=== FILE: main_activity.dfy ===
/**
 The phone activity (MainActivity): a device that is either HOST (advertises, applies
 watch commands and forwards them) or CLIENT (discovers, applies the commands it
 receives). Every SDK callback and UI choice is an `Event`; `Next` returns the new state
 and the SDK calls the handler makes, in order.

 The activity compares commands against the app module's constants, three of which the
 app module does not define; the vocabulary `v` is therefore a parameter of the model.
 */
module MainActivity {
  import opened Wrappers
  import opened Commands
  import opened Nearby
  import Utf8
  import HostScoring

  datatype Role = Host | Client

  datatype State = State(role: Option<Role>, connected: bool, endpoint: Option<EndpointId>, score: HostScoring.Score)

  datatype Event =
    | RoleSelected(role: Role, permissionsGranted: bool)
    | PermissionsResult(allGranted: bool)
    | ConnectionInitiated(endpoint: EndpointId)
    | ConnectionResult(endpoint: EndpointId, status: Status)
    | Disconnected(endpoint: EndpointId)
    | EndpointFound(endpoint: EndpointId)
    | ConnectionRequestFailed(endpoint: EndpointId)
    | EndpointLost(endpoint: EndpointId)
    | PayloadReceived(endpoint: EndpointId, payload: Payload)
    | WatchCommand(token: string)
    | Stopped

  datatype Step = Step(state: State, actions: seq<Action>)

  const ServiceId := "com.example.bluetoothscorekeeper.SERVICE_ID"
  const EndpointName := "Scorekeeper"

  const Advertise := StartAdvertising(EndpointName, ServiceId, P2pStar)
  const Discover := StartDiscovery(ServiceId, P2pStar)

  const Start := State(None, false, None, HostScoring.Initial)

  /** What (re)starts the negotiation for a role: advertising for HOST, discovery for CLIENT. */
  function StartFor(role: Option<Role>): (actions: seq<Action>)
    ensures role == Some(Host) ==> actions == [Advertise]
    ensures role == Some(Client) ==> actions == [Discover]
    ensures role.None? ==> actions == []
  {
    match role
    case Some(Host) => [Advertise]
    case Some(Client) => [Discover]
    case None => []
  }

  /** `sendScoreToTablet`: the token's bytes go to the recorded endpoint, and only from a HOST. */
  function SendToTablet(st: State, t: string): (actions: seq<Action>)
    ensures HasSend(actions) <==> st.role == Some(Host) && st.endpoint.Some?
    ensures HasSend(actions) ==> actions == [SendPayload(st.endpoint.value, Utf8.Encode(t))]
    ensures !HasSend(actions) ==> actions == []
  {
    if st.role == Some(Host) && st.endpoint.Some? then
      var send := [SendPayload(st.endpoint.value, Utf8.Encode(t))];
      assert send[0].SendPayload?;
      send
    else []
  }

  /** A connection that failed or dropped: forget the peer and start over for the role. */
  function Lost(st: State): Step {
    Step(st.(connected := false, endpoint := None), StartFor(st.role))
  }

  function Next(v: Vocabulary, st: State, e: Event): (r: Step)
    // a successful result records the peer and stops both advertising and discovery
    ensures e.ConnectionResult? && e.status == Success ==>
              r.state == st.(connected := true, endpoint := Some(e.endpoint))
              && r.actions == [StopAdvertising, StopDiscovery]
    // a failed result or a disconnect clears the peer and restarts the role's step
    ensures (e.ConnectionResult? && e.status != Success) || e.Disconnected? ==>
              r.state == st.(connected := false, endpoint := None)
              && r.actions == StartFor(st.role)
    // onStop forgets the peer and the role, and stops every endpoint; the score survives
    ensures e.Stopped? ==>
              r.state == State(None, false, None, st.score) && r.actions == [StopAllEndpoints]
    // a send happens exactly for a watch command on a HOST with a recorded endpoint,
    // and carries the command's own bytes
    ensures HasSend(r.actions) <==> e.WatchCommand? && st.role == Some(Host) && st.endpoint.Some?
    ensures HasSend(r.actions) ==> r.actions == [SendPayload(st.endpoint.value, Utf8.Encode(e.token))]
    // a watch command issues no other SDK call: the send or nothing
    ensures e.WatchCommand? ==>
              r.actions == (if st.role == Some(Host) && st.endpoint.Some?
                            then [SendPayload(st.endpoint.value, Utf8.Encode(e.token))] else [])
    // inbound connections are accepted, by either role
    ensures e.ConnectionInitiated? ==> r == Step(st, [AcceptConnection(e.endpoint)])
    // a found endpoint: discovery stops before the connection request
    ensures e.EndpointFound? ==>
              r == Step(st, [StopDiscovery, RequestConnection(EndpointName, e.endpoint)])
    ensures e.ConnectionRequestFailed? ==> r == Step(st, [Discover])
    // the score moves only through the shared rule, for watch commands on a HOST and for received bytes
    ensures e.WatchCommand? && st.role == Some(Host) ==>
              r.state.score == HostScoring.Apply(v, st.score, e.token)
    ensures e.PayloadReceived? && e.payload.Bytes? ==>
              r.state.score == HostScoring.Apply(v, st.score, Utf8.Decode(e.payload.data))
    ensures r.state.score != st.score ==>
              (e.WatchCommand? && st.role == Some(Host)) || (e.PayloadReceived? && e.payload.Bytes?)
    // a role is chosen once: it starts advertising or discovery when permissions are
    // already granted and asks for them otherwise; a second choice changes nothing
    ensures e.RoleSelected? && st.role.None? ==>
              r.state == st.(role := Some(e.role))
              && r.actions == (if e.permissionsGranted then StartFor(Some(e.role)) else [RequestPermissions])
    ensures e.RoleSelected? && st.role.Some? ==> r == Step(st, [])
    // a permission result starts the chosen role's step only when everything was granted
    ensures e.PermissionsResult? ==> r == Step(st, if e.allGranted then StartFor(st.role) else [])
    // a lost endpoint and a received payload issue no SDK call; a non-bytes payload is dropped
    ensures e.EndpointLost? ==> r == Step(st, [])
    ensures e.PayloadReceived? ==> r.actions == []
    ensures e.PayloadReceived? && e.payload.NotBytes? ==> r == Step(st, [])
    // only the lifecycle events touch the session
    ensures !(e.RoleSelected? || e.ConnectionResult? || e.Disconnected? || e.Stopped?) ==>
              r.state.role == st.role && r.state.connected == st.connected && r.state.endpoint == st.endpoint
  {
    match e
    case RoleSelected(role, granted) =>
      // the role can only be chosen while none is set
      if st.role.Some? then Step(st, [])
      else Step(st.(role := Some(role)), if granted then StartFor(Some(role)) else [RequestPermissions])
    case PermissionsResult(allGranted) =>
      Step(st, if allGranted then StartFor(st.role) else [])
    case ConnectionInitiated(ep) =>
      Step(st, [AcceptConnection(ep)])
    case ConnectionResult(ep, status) =>
      if status == Success then
        Step(st.(connected := true, endpoint := Some(ep)), [StopAdvertising, StopDiscovery])
      else Lost(st)
    case Disconnected(_) =>
      Lost(st)
    case EndpointFound(ep) =>
      Step(st, [StopDiscovery, RequestConnection(EndpointName, ep)])
    case ConnectionRequestFailed(_) =>
      Step(st, [Discover])
    case EndpointLost(_) =>
      Step(st, [])
    case PayloadReceived(_, payload) =>
      if payload.Bytes? then
        Step(st.(score := HostScoring.Apply(v, st.score, Utf8.Decode(payload.data))), [])
      else Step(st, [])
    case WatchCommand(t) =>
      if st.role == Some(Host) then
        var applied := st.(score := HostScoring.Apply(v, st.score, t));
        Step(applied, SendToTablet(applied, t))
      else Step(st, [])
    case Stopped =>
      Step(State(None, false, None, st.score), [StopAllEndpoints])
  }

  /**
   Recovery is a fresh start: after a failed connection or a disconnect the phone issues
   exactly what choosing its role with permissions granted, or a granted permission
   result, issues for that role.
   */
  lemma RestartIsFreshStart(v: Vocabulary, st: State, ep: EndpointId, role: Role)
    requires st.role == Some(role)
    ensures Next(v, st, Disconnected(ep)).actions == Next(v, st.(role := None), RoleSelected(role, true)).actions
    ensures Next(v, st, ConnectionResult(ep, Error)).actions == Next(v, st, PermissionsResult(true)).actions
    ensures Next(v, st, Disconnected(ep)).actions != []
  {
  }

  /** The events handled one after another; the actions are concatenated in order. */
  function Run(v: Vocabulary, st: State, es: seq<Event>): Step
    decreases |es|
  {
    if |es| == 0 then Step(st, [])
    else
      var first := Next(v, st, es[0]);
      var rest := Run(v, first.state, es[1..]);
      Step(rest.state, first.actions + rest.actions)
  }

  /** The phone is connected exactly when it has recorded a peer, and its score is consistent. */
  predicate Invariant(st: State) {
    (st.connected <==> st.endpoint.Some?) && HostScoring.Consistent(st.score)
  }

  lemma {:induction false} RunInvariant(v: Vocabulary, st: State, es: seq<Event>)
    requires v.Distinct() && Invariant(st)
    ensures Invariant(Run(v, st, es).state)
    decreases |es|
  {
    if |es| > 0 {
      RunInvariant(v, Next(v, st, es[0]).state, es[1..]);
    }
  }

  /** A phone that is not HOST never sends, whatever it handles, as long as no role is chosen for it. */
  lemma {:induction false} ClientNeverSends(v: Vocabulary, st: State, es: seq<Event>)
    requires st.role != Some(Host)
    requires forall i :: 0 <= i < |es| ==> !es[i].RoleSelected?
    ensures !HasSend(Run(v, st, es).actions)
    decreases |es|
  {
    if |es| > 0 {
      var first := Next(v, st, es[0]);
      ClientNeverSends(v, first.state, es[1..]);
      var rest := Run(v, first.state, es[1..]);
      assert !HasSend(first.actions);
      assert forall i :: 0 <= i < |first.actions + rest.actions| ==>
        (first.actions + rest.actions)[i] == (if i < |first.actions| then first.actions[i] else rest.actions[i - |first.actions|]);
    }
  }
}

=== FILE: nearby.dfy ===
/**
 The peer-to-peer connection SDK, seen from the application: every call the application
 makes becomes an `Action` it emits (together with the activities' permission request), and every callback it receives becomes an event of
 the device that registered it. What the SDK does with an action is not modelled.
 */
module Nearby {
  import Utf8

  type EndpointId = string

  datatype Strategy = P2pStar | P2pPointToPoint

  /** The status codes the callbacks distinguish; every other code is `OtherCode`. */
  datatype Status = Success | ConnectionRejected | Error | OtherCode

  /** An incoming payload: only `Bytes` payloads carry a command. */
  datatype Payload = Bytes(data: seq<Utf8.Byte>) | NotBytes

  datatype Action =
    | StartAdvertising(name: string, serviceId: string, strategy: Strategy)
    | StartDiscovery(serviceId: string, strategy: Strategy)
    | StopAdvertising
    | StopDiscovery
    | StopAllEndpoints
    | RequestConnection(name: string, endpoint: EndpointId)
    | AcceptConnection(endpoint: EndpointId)
    | RejectConnection(endpoint: EndpointId)
    | DisconnectFromEndpoint(endpoint: EndpointId)
    | SendPayload(endpoint: EndpointId, data: seq<Utf8.Byte>)
    // not an SDK call: the activity's own permission request, issued alongside them
    | RequestPermissions

  predicate HasSend(actions: seq<Action>) {
    exists i :: 0 <= i < |actions| && actions[i].SendPayload?
  }

  /** The data of the payloads sent, in the order they were sent. */
  function SentData(actions: seq<Action>): (ds: seq<seq<Utf8.Byte>>)
    ensures |ds| <= |actions|
    ensures |ds| == 0 <==> !HasSend(actions)
  {
    if |actions| == 0 then []
    else
      var tail := SentData(actions[1..]);
      assert forall i :: 1 <= i < |actions| ==> actions[i] == actions[1..][i - 1];
      if actions[0].SendPayload? then [actions[0].data] + tail else tail
  }

  lemma {:induction false} SentDataAppend(a: seq<Action>, b: seq<Action>)
    ensures SentData(a + b) == SentData(a) + SentData(b)
  {
    if |a| > 0 {
      assert (a + b)[1..] == a[1..] + b;
      SentDataAppend(a[1..], b);
    } else {
      assert a + b == b;
    }
  }
}

=== FILE: phone_listener_service.dfy ===
/**
 The phone's background relay (PhoneListenerService): it advertises for the tablet,
 accepts whoever connects, and forwards every command record the watch writes under
 `/score_update` to the recorded endpoint, verbatim. It keeps no score of its own.
 */
module PhoneListenerService {
  import opened Wrappers
  import opened Commands
  import opened Nearby
  import Utf8

  datatype State = State(endpoint: Option<EndpointId>)

  datatype DataEventType = Changed | Deleted

  /** One record of a data-layer change buffer: its type, its path and its `command` string, if any. */
  datatype DataEvent = DataEvent(kind: DataEventType, path: string, command: Option<string>)

  datatype Event =
    | Created
    | Destroyed
    | DataChanged(events: seq<DataEvent>)
    | ConnectionInitiated(endpoint: EndpointId)
    | ConnectionResult(endpoint: EndpointId, status: Status)
    | Disconnected(endpoint: EndpointId)
    | PayloadReceived(endpoint: EndpointId, payload: Payload)

  datatype Step = Step(state: State, actions: seq<Action>)

  const ServiceId := "com.example.bluetoothscorekeeper"
  const ServerName := "SCORE_SERVER_PHONE"

  const Advertise := StartAdvertising(ServerName, ServiceId, P2pPointToPoint)

  const Start := State(None)

  predicate IsScoreUpdate(d: DataEvent) {
    d.kind == Changed && d.path == ScoreUpdatePath
  }

  /** `forwardCommandToTablet`: nothing without a command or a recorded endpoint. */
  function Forward(st: State, command: Option<string>): (actions: seq<Action>)
    ensures command.None? || st.endpoint.None? ==> actions == []
    ensures command.Some? && st.endpoint.Some? ==>
              actions == [SendPayload(st.endpoint.value, Utf8.Encode(command.value))]
  {
    if command.None? || st.endpoint.None? then []
    else [SendPayload(st.endpoint.value, Utf8.Encode(command.value))]
  }

  /** `onDataChanged`: the buffer is walked in order and every score-update record is forwarded. */
  function ForwardAll(st: State, ds: seq<DataEvent>): (actions: seq<Action>)
    ensures |actions| <= |ds|
    ensures st.endpoint.None? ==> actions == []
    ensures forall i :: 0 <= i < |actions| ==>
              actions[i].SendPayload? && Some(actions[i].endpoint) == st.endpoint
    decreases |ds|
  {
    if |ds| == 0 then []
    else
      var head := if IsScoreUpdate(ds[0]) then Forward(st, ds[0].command) else [];
      head + ForwardAll(st, ds[1..])
  }

  /** The commands of the score-update records that carry one, in buffer order. */
  function RecordedCommands(ds: seq<DataEvent>): seq<string>
    decreases |ds|
  {
    if |ds| == 0 then []
    else if IsScoreUpdate(ds[0]) && ds[0].command.Some? then [ds[0].command.value] + RecordedCommands(ds[1..])
    else RecordedCommands(ds[1..])
  }

  /** One send per command, each carrying that command's bytes. */
  function SendEach(ep: EndpointId, cs: seq<string>): (actions: seq<Action>)
    ensures |actions| == |cs|
    ensures forall i :: 0 <= i < |cs| ==> actions[i] == SendPayload(ep, Utf8.Encode(cs[i]))
  {
    if |cs| == 0 then [] else [SendPayload(ep, Utf8.Encode(cs[0]))] + SendEach(ep, cs[1..])
  }

  /**
   With a recorded endpoint, exactly the score-update commands are forwarded, each once
   and in buffer order; every other record is ignored.
   */
  lemma {:induction false} ForwardAllSendsCommands(st: State, ds: seq<DataEvent>)
    requires st.endpoint.Some?
    ensures ForwardAll(st, ds) == SendEach(st.endpoint.value, RecordedCommands(ds))
    decreases |ds|
  {
    if |ds| > 0 {
      ForwardAllSendsCommands(st, ds[1..]);
    }
  }

  /** Two buffers handled one after the other forward what their concatenation forwards. */
  lemma {:induction false} ForwardAllAppend(st: State, a: seq<DataEvent>, b: seq<DataEvent>)
    ensures ForwardAll(st, a + b) == ForwardAll(st, a) + ForwardAll(st, b)
    decreases |a|
  {
    if |a| > 0 {
      assert (a + b)[0] == a[0];
      assert (a + b)[1..] == a[1..] + b;
      ForwardAllAppend(st, a[1..], b);
    } else {
      assert a + b == b;
    }
  }

  /** The events handled one after another; the actions are concatenated in order. */
  function Run(st: State, es: seq<Event>): Step
    decreases |es|
  {
    if |es| == 0 then Step(st, [])
    else
      var first := Next(st, es[0]);
      var rest := Run(first.state, es[1..]);
      Step(rest.state, first.actions + rest.actions)
  }

  function Next(st: State, e: Event): (r: Step)
    // each creation is a fresh service instance with no endpoint, and it advertises;
    // destroy stops advertising and every endpoint
    ensures e.Created? ==> r == Step(Start, [Advertise])
    ensures e.Destroyed? ==> r == Step(st, [StopAdvertising, StopAllEndpoints])
    // inbound connections are auto-accepted; inbound payloads are ignored
    ensures e.ConnectionInitiated? ==> r == Step(st, [AcceptConnection(e.endpoint)])
    ensures e.PayloadReceived? ==> r == Step(st, [])
    // SUCCESS records the endpoint; every other code changes nothing and restarts nothing
    ensures e.ConnectionResult? && e.status == Success ==> r == Step(State(Some(e.endpoint)), [])
    ensures e.ConnectionResult? && e.status != Success ==> r == Step(st, [])
    // a disconnect clears the endpoint and advertises again
    ensures e.Disconnected? ==> r == Step(State(None), [Advertise])
    // forwarding changes no state and only sends, to the recorded endpoint
    ensures e.DataChanged? ==> r.state == st
    ensures e.DataChanged? && st.endpoint.Some? ==>
              r.actions == SendEach(st.endpoint.value, RecordedCommands(e.events))
    ensures e.DataChanged? && st.endpoint.None? ==> r.actions == []
  {
    match e
    case Created => Step(Start, [Advertise])
    case Destroyed => Step(st, [StopAdvertising, StopAllEndpoints])
    case DataChanged(ds) =>
      assert st.endpoint.Some? ==> ForwardAll(st, ds) == SendEach(st.endpoint.value, RecordedCommands(ds)) by {
        if st.endpoint.Some? {
          ForwardAllSendsCommands(st, ds);
        }
      }
      Step(st, ForwardAll(st, ds))
    case ConnectionInitiated(ep) => Step(st, [AcceptConnection(ep)])
    case ConnectionResult(ep, status) =>
      if status == Success then Step(State(Some(ep)), []) else Step(st, [])
    case Disconnected(_) => Step(State(None), [Advertise])
    case PayloadReceived(_, _) => Step(st, [])
  }

  /**
   A re-created service does not forward to the endpoint of its previous instance: whatever
   was recorded before a destroy, the next creation forwards nothing until a new connection.
   */
  lemma RecreatedServiceForgetsEndpoint(st: State, ep: EndpointId, ds: seq<DataEvent>)
    ensures Run(st, [ConnectionResult(ep, Success), Destroyed, Created, DataChanged(ds)]).actions
            == [StopAdvertising, StopAllEndpoints, Advertise]
  {
    var s1 := State(Some(ep));
    assert Run(Start, [DataChanged(ds)]).actions == [] by {
      assert [DataChanged(ds)][1..] == [];
    }
    assert Run(s1, [Created, DataChanged(ds)]).actions == [Advertise] by {
      assert [Created, DataChanged(ds)][1..] == [DataChanged(ds)];
    }
    assert Run(s1, [Destroyed, Created, DataChanged(ds)]).actions == [StopAdvertising, StopAllEndpoints, Advertise] by {
      assert [Destroyed, Created, DataChanged(ds)][1..] == [Created, DataChanged(ds)];
    }
    assert [ConnectionResult(ep, Success), Destroyed, Created, DataChanged(ds)][1..] == [Destroyed, Created, DataChanged(ds)];
  }
}

=== FILE: relay.dfy ===
/**
 Properties across devices. The HOST phone applies each watch command and sends the
 identical token as UTF-8 bytes; a peer that applies the received bytes with the same
 rule ends with the same score. The tablet applies a different, increment-only rule, and
 the watch's tokens are not the tablet's tokens.
 */
module Relay {
  import opened Wrappers
  import opened Commands
  import opened Nearby
  import Utf8
  import HostScoring
  import TabletScoring
  import MainActivity
  import TabletActivity
  import PhoneListenerService

  function WatchEvents(ts: seq<string>): (es: seq<MainActivity.Event>)
    ensures |es| == |ts|
  {
    if |ts| == 0 then [] else [MainActivity.WatchCommand(ts[0])] + WatchEvents(ts[1..])
  }

  function EncodeAll(ts: seq<string>): (ds: seq<seq<Utf8.Byte>>)
    ensures |ds| == |ts|
  {
    if |ts| == 0 then [] else [Utf8.Encode(ts[0])] + EncodeAll(ts[1..])
  }

  /** Each payload delivered, in order, to a phone. */
  function PhoneDeliveries(from: EndpointId, ds: seq<seq<Utf8.Byte>>): (es: seq<MainActivity.Event>)
    ensures |es| == |ds|
  {
    if |ds| == 0 then []
    else [MainActivity.PayloadReceived(from, Bytes(ds[0]))] + PhoneDeliveries(from, ds[1..])
  }

  /** Each payload delivered, in order, to the tablet. */
  function TabletDeliveries(from: EndpointId, ds: seq<seq<Utf8.Byte>>): (es: seq<TabletActivity.Event>)
    ensures |es| == |ds|
  {
    if |ds| == 0 then []
    else [TabletActivity.PayloadReceived(from, Bytes(ds[0]))] + TabletDeliveries(from, ds[1..])
  }

  /** A connected HOST applies every watch command and sends exactly their bytes, in order. */
  lemma {:induction false} HostRelays(v: Vocabulary, host: MainActivity.State, ts: seq<string>)
    requires host.role == Some(MainActivity.Host) && host.endpoint.Some?
    ensures MainActivity.Run(v, host, WatchEvents(ts)).state
            == host.(score := HostScoring.Run(v, host.score, ts))
    ensures SentData(MainActivity.Run(v, host, WatchEvents(ts)).actions) == EncodeAll(ts)
    decreases |ts|
  {
    if |ts| > 0 {
      var es := WatchEvents(ts);
      assert es[1..] == WatchEvents(ts[1..]);
      var first := MainActivity.Next(v, host, es[0]);
      HostRelays(v, first.state, ts[1..]);
      var rest := MainActivity.Run(v, first.state, es[1..]);
      SentDataAppend(first.actions, rest.actions);
      assert SentData(first.actions) == [Utf8.Encode(ts[0])];
    }
  }

  /** A phone that receives the bytes of some tokens applies the tokens themselves, in order. */
  lemma {:induction false} PhoneApplies(v: Vocabulary, phone: MainActivity.State, from: EndpointId, ts: seq<string>)
    ensures MainActivity.Run(v, phone, PhoneDeliveries(from, EncodeAll(ts))).state
            == phone.(score := HostScoring.Run(v, phone.score, ts))
    decreases |ts|
  {
    if |ts| > 0 {
      var ds := EncodeAll(ts);
      assert ds[1..] == EncodeAll(ts[1..]);
      Utf8.DecodeEncode(ts[0]);
      var first := MainActivity.Next(v, phone, MainActivity.PayloadReceived(from, Bytes(ds[0])));
      PhoneApplies(v, first.state, from, ts[1..]);
    }
  }

  /**
   Host/client consistency: a HOST with a recorded peer handles a sequence of watch
   commands; a peer that starts from the same score and receives what the host sent
   ends with the host's score, which is the shared rule applied to the commands.
   */
  lemma {:induction false} HostAndClientAgree(v: Vocabulary, host: MainActivity.State, client: MainActivity.State, from: EndpointId, ts: seq<string>)
    requires host.role == Some(MainActivity.Host) && host.endpoint.Some?
    requires client.score == host.score
    ensures var h := MainActivity.Run(v, host, WatchEvents(ts));
            var c := MainActivity.Run(v, client, PhoneDeliveries(from, SentData(h.actions)));
            c.state.score == h.state.score && h.state.score == HostScoring.Run(v, host.score, ts)
  {
    HostRelays(v, host, ts);
    PhoneApplies(v, client, from, ts);
  }

  /** The tablet applies what it receives with its own increment-only rule. */
  lemma {:induction false} TabletApplies(tablet: TabletActivity.State, from: EndpointId, ts: seq<string>)
    ensures TabletActivity.Run(tablet, TabletDeliveries(from, EncodeAll(ts))).state
            == tablet.(score := TabletScoring.Run(tablet.score, ts))
    decreases |ts|
  {
    if |ts| > 0 {
      var ds := EncodeAll(ts);
      assert ds[1..] == EncodeAll(ts[1..]);
      Utf8.DecodeEncode(ts[0]);
      var first := TabletActivity.Next(tablet, TabletActivity.PayloadReceived(from, Bytes(ds[0])));
      TabletApplies(first.state, from, ts[1..]);
    }
  }

  /**
   The two rules differ: from 0 to 0, an increment and a decrement of player 1 leave the
   phone at 0 to 0 but the tablet at 1 to 0, even when both use the token `P1_INC`.
   */
  lemma HostAndTabletDiverge(v: Vocabulary)
    requires v.Distinct() && AgreesWithApp(v)
    ensures HostScoring.Run(v, HostScoring.Initial, [v.p1Inc, v.p1Dec]) == HostScoring.Score(0, 0, None)
    ensures TabletScoring.Run(TabletScoring.Zero, [v.p1Inc, v.p1Dec]) == TabletScoring.Score(1, 0)
  {
    var ts := [v.p1Inc, v.p1Dec];
    assert ts[1..] == [v.p1Dec] && [v.p1Dec][1..] == [];
    var s1 := HostScoring.Apply(v, HostScoring.Initial, v.p1Inc);
    assert s1 == HostScoring.Score(1, 0, None);
    assert HostScoring.Run(v, HostScoring.Initial, ts) == HostScoring.Run(v, s1, [v.p1Dec]);
    assert HostScoring.Run(v, s1, [v.p1Dec]) == HostScoring.Apply(v, s1, v.p1Dec);
    var t1 := TabletScoring.Update(TabletScoring.Zero, v.p1Inc);
    assert TabletScoring.Run(TabletScoring.Zero, ts) == TabletScoring.Run(t1, [v.p1Dec]);
    assert TabletScoring.Run(t1, [v.p1Dec]) == TabletScoring.Update(t1, v.p1Dec);
  }

  /**
   The tablet keeps counting after the phone's game is frozen: with TEAM WALL declared,
   a player-2 increment changes nothing on the phone and adds a point on the tablet.
   */
  lemma TabletIgnoresWinner(v: Vocabulary, p1: nat, p2: nat)
    requires v.Distinct() && AgreesWithApp(v)
    ensures HostScoring.Apply(v, HostScoring.Score(p1, p2, Some(HostScoring.TeamWall)), v.p2Inc)
            == HostScoring.Score(p1, p2, Some(HostScoring.TeamWall))
    ensures TabletScoring.Update(TabletScoring.Score(p1, p2), v.p2Inc) == TabletScoring.Score(p1, p2 + 1)
  {
  }

  /** Commands spelled in the watch's vocabulary never move the tablet's counters. */
  lemma {:induction false} WatchTokensNeverMoveTablet(s: TabletScoring.Score, ts: seq<string>)
    requires forall i :: 0 <= i < |ts| ==> WearVocabulary.Names(ts[i])
    ensures TabletScoring.Run(s, ts) == s
    decreases |ts|
  {
    if |ts| > 0 {
      TabletScoring.WearTokensIgnored(s, ts[0]);
      WatchTokensNeverMoveTablet(s, ts[1..]);
    }
  }

  /** The background relay advertises under another service id and strategy than the tablet discovers. */
  lemma RelayAndTabletDoNotMeet()
    ensures PhoneListenerService.Advertise.serviceId != TabletActivity.Discover.serviceId
    ensures PhoneListenerService.Advertise.strategy != TabletActivity.Discover.strategy
  {
  }
}

=== FILE: tablet_activity.dfy ===
/**
 The tablet activity (TabletActivity): always a discoverer. It connects to the first
 endpoint it finds, rejects every inbound connection, keeps its own increment-only
 counters, and restarts discovery after every failure or loss of the host.
 */
module TabletActivity {
  import opened Wrappers
  import opened Commands
  import opened Nearby
  import Utf8
  import TabletScoring

  datatype State = State(score: TabletScoring.Score, connected: bool, host: Option<EndpointId>)

  datatype Event =
    | Started(permissionsGranted: bool)
    | PermissionsResult(allGranted: bool)
    // the score lambdas handed to the scoreboard, which the UI as written never calls
    | Player1Pressed
    | Player2Pressed
    | ResetPressed
    | EndpointFound(endpoint: EndpointId)
    | ConnectionRequestFailed(endpoint: EndpointId)
    | EndpointLost(endpoint: EndpointId)
    | ConnectionInitiated(endpoint: EndpointId)
    | ConnectionResult(endpoint: EndpointId, status: Status)
    | Disconnected(endpoint: EndpointId)
    | PayloadReceived(endpoint: EndpointId, payload: Payload)
    | Stopped

  datatype Step = Step(state: State, actions: seq<Action>)

  const ServiceId := "com.example.bluetoothscorekeeper.SERVICE_ID"
  const ClientName := "SCORE_CLIENT_TABLET"

  const Discover := StartDiscovery(ServiceId, P2pStar)

  const Start := State(TabletScoring.Zero, false, None)

  /** `sendScoreUpdate`: sends only while connected to a recorded host. */
  function SendScoreUpdate(st: State, t: string): (actions: seq<Action>)
    ensures HasSend(actions) <==> st.connected && st.host.Some?
    ensures HasSend(actions) ==> actions == [SendPayload(st.host.value, Utf8.Encode(t))]
    ensures !HasSend(actions) ==> actions == []
  {
    if st.connected && st.host.Some? then
      var send := [SendPayload(st.host.value, Utf8.Encode(t))];
      assert send[0].SendPayload?;
      send
    else []
  }

  /** The host is gone: forget it and search again. */
  function Lost(st: State): Step {
    Step(st.(connected := false, host := None), [Discover])
  }

  function Next(st: State, e: Event): (r: Step)
    // inbound connections are always rejected, never accepted
    ensures e.ConnectionInitiated? ==> r == Step(st, [RejectConnection(e.endpoint)])
    ensures forall i :: 0 <= i < |r.actions| ==> !r.actions[i].AcceptConnection?
    // a found endpoint: discovery stops before the connection request; a failed request restarts it
    ensures e.EndpointFound? ==> r == Step(st, [StopDiscovery, RequestConnection(ClientName, e.endpoint)])
    ensures e.ConnectionRequestFailed? ==> r == Step(st, [Discover])
    // STATUS_OK records the host; any other status clears it and restarts discovery
    ensures e.ConnectionResult? && e.status == Success ==>
              r == Step(st.(connected := true, host := Some(e.endpoint)), [])
    ensures (e.ConnectionResult? && e.status != Success) || e.Disconnected? ==>
              r == Step(st.(connected := false, host := None), [Discover])
    // a lost endpoint matters only when it is the recorded host
    ensures e.EndpointLost? && st.host == Some(e.endpoint) ==>
              r == Step(st.(connected := false, host := None), [Discover])
    ensures e.EndpointLost? && st.host != Some(e.endpoint) ==> r == Step(st, [])
    // onStop disconnects from a recorded host and stops discovery, but keeps the host id
    ensures e.Stopped? ==>
              r.state == st.(connected := false)
              && r.actions == (if st.host.Some? then [DisconnectFromEndpoint(st.host.value)] else []) + [StopDiscovery]
    // the reset callback is the only way down; it zeroes both counters
    ensures e.ResetPressed? ==> r.state.score == TabletScoring.Zero
    ensures !e.ResetPressed? ==> r.state.score.p1 >= st.score.p1 && r.state.score.p2 >= st.score.p2
    // the score callbacks and received bytes go through the increment-only rule
    ensures e.Player1Pressed? ==> r.state.score == TabletScoring.Update(st.score, AppP1Inc)
    ensures e.Player2Pressed? ==> r.state.score == TabletScoring.Update(st.score, AppP2Inc)
    ensures e.PayloadReceived? && e.payload.Bytes? ==>
              r.state.score == TabletScoring.Update(st.score, Utf8.Decode(e.payload.data))
    // start-up discovers when permissions are granted and asks for them otherwise
    ensures e.Started? ==> r == Step(st, if e.permissionsGranted then [Discover] else [RequestPermissions])
    ensures e.PermissionsResult? ==> r == Step(st, if e.allGranted then [Discover] else [])
    // score callbacks, reset and received payloads touch only the score and issue no SDK call
    ensures e.Player1Pressed? || e.Player2Pressed? || e.ResetPressed? || e.PayloadReceived? ==>
              r.state.connected == st.connected && r.state.host == st.host && r.actions == []
    ensures e.PayloadReceived? && e.payload.NotBytes? ==> r == Step(st, [])
    // nothing else touches the score
    ensures !(e.Player1Pressed? || e.Player2Pressed? || e.ResetPressed? || e.PayloadReceived?) ==>
              r.state.score == st.score
    // the tablet never sends from a callback
    ensures !HasSend(r.actions)
  {
    match e
    case Started(granted) =>
      Step(st, if granted then [Discover] else [RequestPermissions])
    case PermissionsResult(allGranted) =>
      Step(st, if allGranted then [Discover] else [])
    case Player1Pressed =>
      Step(st.(score := TabletScoring.Update(st.score, AppP1Inc)), [])
    case Player2Pressed =>
      Step(st.(score := TabletScoring.Update(st.score, AppP2Inc)), [])
    case ResetPressed =>
      Step(st.(score := TabletScoring.Zero), [])
    case EndpointFound(ep) =>
      Step(st, [StopDiscovery, RequestConnection(ClientName, ep)])
    case ConnectionRequestFailed(_) =>
      Step(st, [Discover])
    case EndpointLost(ep) =>
      if st.host == Some(ep) then Lost(st) else Step(st, [])
    case ConnectionInitiated(ep) =>
      Step(st, [RejectConnection(ep)])
    case ConnectionResult(ep, status) =>
      if status == Success then Step(st.(connected := true, host := Some(ep)), [])
      else Lost(st)
    case Disconnected(_) =>
      Lost(st)
    case PayloadReceived(_, payload) =>
      if payload.Bytes? then Step(st.(score := TabletScoring.Update(st.score, Utf8.Decode(payload.data))), [])
      else Step(st, [])
    case Stopped =>
      var disconnect := if st.host.Some? then [DisconnectFromEndpoint(st.host.value)] else [];
      Step(st.(connected := false), disconnect + [StopDiscovery])
  }

  function Run(st: State, es: seq<Event>): Step
    decreases |es|
  {
    if |es| == 0 then Step(st, [])
    else
      var first := Next(st, es[0]);
      var rest := Run(first.state, es[1..]);
      Step(rest.state, first.actions + rest.actions)
  }

  /** The tablet is connected only to a recorded host (the converse fails after onStop). */
  predicate Invariant(st: State) {
    st.connected ==> st.host.Some?
  }

  lemma {:induction false} RunInvariant(st: State, es: seq<Event>)
    requires Invariant(st)
    ensures Invariant(Run(st, es).state)
    decreases |es|
  {
    if |es| > 0 {
      RunInvariant(Next(st, es[0]).state, es[1..]);
    }
  }

  /** No sequence of events makes the tablet accept a connection. */
  lemma {:induction false} NeverAccepts(st: State, es: seq<Event>)
    ensures forall i :: 0 <= i < |Run(st, es).actions| ==> !Run(st, es).actions[i].AcceptConnection?
    decreases |es|
  {
    if |es| > 0 {
      var first := Next(st, es[0]);
      NeverAccepts(first.state, es[1..]);
      var rest := Run(first.state, es[1..]);
      assert forall i :: 0 <= i < |first.actions + rest.actions| ==>
        (first.actions + rest.actions)[i] == (if i < |first.actions| then first.actions[i] else rest.actions[i - |first.actions|]);
    }
  }

  /**
   After onStop the recorded host may remain, yet no update is sent until a new
   successful connection result arrives.
   */
  lemma {:induction false} StoppedSuppressesSends(st: State, es: seq<Event>, t: string)
    requires forall i :: 0 <= i < |es| ==> !(es[i].ConnectionResult? && es[i].status == Success)
    ensures SendScoreUpdate(Run(Next(st, Stopped).state, es).state, t) == []
  {
    NotConnectedStays(Next(st, Stopped).state, es);
  }

  lemma {:induction false} NotConnectedStays(st: State, es: seq<Event>)
    requires !st.connected
    requires forall i :: 0 <= i < |es| ==> !(es[i].ConnectionResult? && es[i].status == Success)
    ensures !Run(st, es).state.connected
    decreases |es|
  {
    if |es| > 0 {
      NotConnectedStays(Next(st, es[0]).state, es[1..]);
    }
  }

  /** Only the reset callback lowers a tablet score: without it, scores never decrease. */
  lemma {:induction false} ScoresOnlyGrowWithoutReset(st: State, es: seq<Event>)
    requires forall i :: 0 <= i < |es| ==> !es[i].ResetPressed?
    ensures Run(st, es).state.score.p1 >= st.score.p1 && Run(st, es).state.score.p2 >= st.score.p2
    decreases |es|
  {
    if |es| > 0 {
      ScoresOnlyGrowWithoutReset(Next(st, es[0]).state, es[1..]);
    }
  }
}

=== FILE: tablet_scoring.dfy ===
/**
 The tablet's score rule (`updateScore` and the reset callback of TabletActivity): two
 counters that only the app's two increment tokens move, one point at a time, and that
 only the reset callback sets back to zero. There is no winner and no frozen game.
 */
module TabletScoring {
  import opened Commands

  datatype Score = Score(p1: nat, p2: nat)

  const Zero := Score(0, 0)

  function Update(s: Score, t: string): (r: Score)
    // no token decreases a score
    ensures r.p1 >= s.p1 && r.p2 >= s.p2
    // only the app's increment tokens count, each for its own player
    ensures r.p1 == s.p1 + 1 <==> t == AppP1Inc
    ensures r.p2 == s.p2 + 1 <==> t == AppP2Inc
    ensures t == AppP1Inc ==> r.p2 == s.p2
    ensures t == AppP2Inc ==> r.p1 == s.p1
    // every other token, decrements and resets included, is ignored
    ensures t != AppP1Inc && t != AppP2Inc <==> r == s
  {
    if t == AppP1Inc then s.(p1 := s.p1 + 1)
    else if t == AppP2Inc then s.(p2 := s.p2 + 1)
    else s
  }

  function Run(s: Score, ts: seq<string>): Score
    decreases |ts|
  {
    if |ts| == 0 then s else Run(Update(s, ts[0]), ts[1..])
  }

  /** How many times `t` occurs in `ts`. */
  function Count(ts: seq<string>, t: string): (n: nat)
    ensures n <= |ts|
  {
    if |ts| == 0 then 0 else (if ts[0] == t then 1 else 0) + Count(ts[1..], t)
  }

  /** Between two resets each counter is exactly its start plus the number of its increment tokens. */
  lemma {:induction false} RunCounts(s: Score, ts: seq<string>)
    ensures Run(s, ts) == Score(s.p1 + Count(ts, AppP1Inc), s.p2 + Count(ts, AppP2Inc))
    decreases |ts|
  {
    if |ts| > 0 {
      RunCounts(Update(s, ts[0]), ts[1..]);
    }
  }

  /** None of the watch's tokens moves a tablet counter. */
  lemma WearTokensIgnored(s: Score, t: string)
    requires WearVocabulary.Names(t)
    ensures Update(s, t) == s
  {
  }
}

=== FILE: utf8.dfy ===
/**
 UTF-8, as used by `String.toByteArray(StandardCharsets.UTF_8)` (sender side) and
 `String(bytes, StandardCharsets.UTF_8)` (receiver side).

 Characters are Unicode scalar values. Encoding follows Table 3-6 of the Unicode
 Standard, section 3.9; decoding accepts exactly the well-formed byte sequences of
 Table 3-7 and replaces every maximal ill-formed subpart by U+FFFD, the substitution
 practice section 3.9 recommends.
 */
module Utf8 {

  type Byte = b: int | 0 <= b < 256

  const Replacement: char := '\U{FFFD}'

  predicate IsScalar(n: int) {
    (0 <= n < 0xD800) || (0xE000 <= n < 0x11_0000)
  }

  predicate IsContinuation(b: Byte) {
    0x80 <= b <= 0xBF
  }

  /** The bytes of one character; `n / 64` peels off one six-bit group at a time. */
  function EncodeChar(c: char): (bs: seq<Byte>)
    ensures 1 <= |bs| <= 4
    ensures (c as int < 0x80) <==> |bs| == 1
    ensures forall i :: 1 <= i < |bs| ==> IsContinuation(bs[i])
  {
    var n := c as int;
    var q1 := n / 64;
    var q2 := q1 / 64;
    var q3 := q2 / 64;
    if n < 0x80 then [n]
    else if n < 0x800 then [0xC0 + q1, 0x80 + n % 64]
    else if n < 0x1_0000 then [0xE0 + q2, 0x80 + q1 % 64, 0x80 + n % 64]
    else [0xF0 + q3, 0x80 + q2 % 64, 0x80 + q1 % 64, 0x80 + n % 64]
  }

  function Encode(s: string): (bs: seq<Byte>)
    ensures |s| <= |bs| <= 4 * |s|
    ensures |s| == 0 <==> |bs| == 0
    // one byte per character exactly for ASCII text, and then the bytes are the code points
    ensures |bs| == |s| <==> forall i :: 0 <= i < |s| ==> s[i] as int < 0x80
    ensures |bs| == |s| ==> forall i :: 0 <= i < |s| ==> bs[i] == s[i] as int
  {
    if |s| == 0 then [] else EncodeChar(s[0]) + Encode(s[1..])
  }

  /** Allowed second bytes of a three-byte sequence (Table 3-7): no overlongs, no surrogates. */
  predicate SecondOfThree(b0: Byte, b1: Byte) {
    if b0 == 0xE0 then 0xA0 <= b1 <= 0xBF
    else if b0 == 0xED then 0x80 <= b1 <= 0x9F
    else IsContinuation(b1)
  }

  /** Allowed second bytes of a four-byte sequence (Table 3-7): no overlongs, nothing above U+10FFFF. */
  predicate SecondOfFour(b0: Byte, b1: Byte) {
    if b0 == 0xF0 then 0x90 <= b1 <= 0xBF
    else if b0 == 0xF4 then 0x80 <= b1 <= 0x8F
    else IsContinuation(b1)
  }

  function Two(b0: Byte, b1: Byte): (n: int)
    requires 0xC2 <= b0 <= 0xDF && IsContinuation(b1)
    ensures 0x80 <= n < 0x800
  {
    (b0 - 0xC0) * 64 + (b1 - 0x80)
  }

  function Three(b0: Byte, b1: Byte, b2: Byte): (n: int)
    requires 0xE0 <= b0 <= 0xEF && SecondOfThree(b0, b1) && IsContinuation(b2)
    ensures 0x800 <= n < 0x1_0000 && IsScalar(n)
  {
    ((b0 - 0xE0) * 64 + (b1 - 0x80)) * 64 + (b2 - 0x80)
  }

  function Four(b0: Byte, b1: Byte, b2: Byte, b3: Byte): (n: int)
    requires 0xF0 <= b0 <= 0xF4 && SecondOfFour(b0, b1) && IsContinuation(b2) && IsContinuation(b3)
    ensures 0x1_0000 <= n < 0x11_0000
  {
    (((b0 - 0xF0) * 64 + (b1 - 0x80)) * 64 + (b2 - 0x80)) * 64 + (b3 - 0x80)
  }

  /** The character at the head of `bs` and how many bytes it used. */
  function DecodeHead(bs: seq<Byte>): (r: (char, nat))
    requires |bs| > 0
    ensures 1 <= r.1 <= |bs| && r.1 <= 4
  {
    var b0 := bs[0];
    if b0 < 0x80 then
      (b0 as char, 1)
    else if 0xC2 <= b0 <= 0xDF then
      if |bs| >= 2 && IsContinuation(bs[1]) then (Two(b0, bs[1]) as char, 2)
      else (Replacement, 1)
    else if 0xE0 <= b0 <= 0xEF then
      if |bs| >= 2 && SecondOfThree(b0, bs[1]) then
        if |bs| >= 3 && IsContinuation(bs[2]) then (Three(b0, bs[1], bs[2]) as char, 3)
        else (Replacement, 2)
      else (Replacement, 1)
    else if 0xF0 <= b0 <= 0xF4 then
      if |bs| >= 2 && SecondOfFour(b0, bs[1]) then
        if |bs| >= 3 && IsContinuation(bs[2]) then
          if |bs| >= 4 && IsContinuation(bs[3]) then (Four(b0, bs[1], bs[2], bs[3]) as char, 4)
          else (Replacement, 3)
        else (Replacement, 2)
      else (Replacement, 1)
    else
      (Replacement, 1)
  }

  /** A decoded head that is not U+FFFD re-encodes to exactly the bytes it consumed. */
  lemma EncodeCharDecodeHead(bs: seq<Byte>)
    requires |bs| > 0
    ensures DecodeHead(bs).0 != Replacement ==> EncodeChar(DecodeHead(bs).0) == bs[..DecodeHead(bs).1]
  {
    var b0 := bs[0] as int;
    var (c, k) := DecodeHead(bs);
    if c != Replacement && b0 >= 0x80 {
      if 0xC2 <= b0 <= 0xDF {
        SixBits(b0 - 0xC0, bs[1] as int - 0x80);
      } else if 0xE0 <= b0 <= 0xEF {
        SixBits((b0 - 0xE0) * 64 + (bs[1] as int - 0x80), bs[2] as int - 0x80);
        SixBits(b0 - 0xE0, bs[1] as int - 0x80);
      } else {
        SixBits(((b0 - 0xF0) * 64 + (bs[1] as int - 0x80)) * 64 + (bs[2] as int - 0x80), bs[3] as int - 0x80);
        SixBits((b0 - 0xF0) * 64 + (bs[1] as int - 0x80), bs[2] as int - 0x80);
        SixBits(b0 - 0xF0, bs[1] as int - 0x80);
      }
    }
  }

  lemma SixBits(q: nat, r: nat)
    requires r < 64
    ensures (q * 64 + r) / 64 == q && (q * 64 + r) % 64 == r
  {
  }

  function Decode(bs: seq<Byte>): (s: string)
    ensures |s| <= |bs|
    ensures |bs| == 0 <==> |s| == 0
    // a byte that cannot begin a sequence (0x80..0xC1, 0xF5..0xFF) becomes U+FFFD
    ensures |bs| > 0 && !(bs[0] < 0x80 || 0xC2 <= bs[0] <= 0xF4) ==> s[0] == Replacement
    // ASCII bytes decode one to one
    ensures (forall i :: 0 <= i < |bs| ==> bs[i] < 0x80) ==>
              |s| == |bs| && forall i :: 0 <= i < |bs| ==> s[i] as int == bs[i]
    decreases |bs|
  {
    if |bs| == 0 then []
    else
      var (c, k) := DecodeHead(bs);
      [c] + Decode(bs[k..])
  }

  lemma EncodeCons(c: char, rest: string)
    ensures Encode([c] + rest) == EncodeChar(c) + Encode(rest)
  {
    assert ([c] + rest)[1..] == rest;
  }

  /** One decoding step that produced no U+FFFD: the input is that character's encoding followed by the rest. */
  lemma DecodeStep(bs: seq<Byte>) returns (c: char, tail: seq<Byte>)
    requires |bs| > 0
    ensures Decode(bs) == [c] + Decode(tail)
    ensures c != Replacement ==> bs == EncodeChar(c) + tail
  {
    c := DecodeHead(bs).0;
    var k := DecodeHead(bs).1;
    tail := bs[k..];
    EncodeCharDecodeHead(bs);
    assert bs == bs[..k] + tail;
  }

  /** Nothing is dropped or altered silently: decoded text free of U+FFFD re-encodes to the input bytes. */
  lemma {:induction false} EncodeDecode(bs: seq<Byte>)
    requires Replacement !in Decode(bs)
    ensures Encode(Decode(bs)) == bs
    decreases |bs|
  {
    if |bs| > 0 {
      var c, tail := DecodeStep(bs);
      var rest := Decode(tail);
      assert c == Decode(bs)[0] && forall i :: 0 <= i < |rest| ==> rest[i] == Decode(bs)[i + 1];
      EncodeDecode(tail);
      EncodeCons(c, rest);
    }
  }

  /** The head of an encoded character decodes back to that character, consuming exactly its bytes. */
  lemma DecodeHeadEncodeChar(c: char, rest: seq<Byte>)
    ensures DecodeHead(EncodeChar(c) + rest) == (c, |EncodeChar(c)|)
  {
    var n := c as int;
    var q1 := n / 64;
    var q2 := q1 / 64;
    var q3 := q2 / 64;
    var bs := EncodeChar(c) + rest;
    if n < 0x80 {
    } else if n < 0x800 {
      assert bs[0] == 0xC0 + q1 && bs[1] == 0x80 + n % 64;
      assert Two(bs[0], bs[1]) == n;
    } else if n < 0x1_0000 {
      assert bs[0] == 0xE0 + q2 && bs[1] == 0x80 + q1 % 64 && bs[2] == 0x80 + n % 64;
      assert q1 == q2 * 64 + q1 % 64;
      assert SecondOfThree(bs[0], bs[1]);
      assert Three(bs[0], bs[1], bs[2]) == n;
    } else {
      assert bs[0] == 0xF0 + q3 && bs[1] == 0x80 + q2 % 64;
      assert bs[2] == 0x80 + q1 % 64 && bs[3] == 0x80 + n % 64;
      assert q2 == q3 * 64 + q2 % 64;
      assert q1 == q2 * 64 + q1 % 64;
      assert SecondOfFour(bs[0], bs[1]);
      assert Four(bs[0], bs[1], bs[2], bs[3]) == n;
    }
  }

  /** What the receiver reconstructs from the sender's bytes is the sender's string. */
  lemma {:induction false} DecodeEncode(s: string)
    ensures Decode(Encode(s)) == s
  {
    if |s| > 0 {
      var head := EncodeChar(s[0]);
      var rest := Encode(s[1..]);
      DecodeHeadEncodeChar(s[0], rest);
      assert (head + rest)[|head|..] == rest;
      DecodeEncode(s[1..]);
    }
  }

  /** Distinct strings are sent as distinct payloads. */
  lemma EncodeInjective(s: string, t: string)
    requires Encode(s) == Encode(t)
    ensures s == t
  {
    DecodeEncode(s);
    DecodeEncode(t);
  }
}

=== FILE: wrappers.dfy ===
/** The nullable references of the Kotlin source (`String?`, `DeviceRole?`) become `Option`. */
module Wrappers {

  datatype Option<+T> = None | Some(value: T)
}
